=== FILE: README.md ===
# yt-downloader decision logic in Dafny

A model of the decision logic in `yt.py`, a command-line YouTube
downloader built on `yt_dlp`. The script's core is glue. Four pieces of pure
logic are modelled here, with everything fetched or typed in passed as a
parameter:

- **Stream summary** (`get_video_audio_info`): picks the video and audio
  candidates out of the engine's format list. It reports the largest height
  and the largest audio bitrate, keeping the first maximum on ties as Python's
  `max` does. It also estimates the size as the truthy video `filesize`
  values, summed and floor-divided by 1024². Sentinel texts stand in where
  nothing is available. (`streams.dfy`)
- **Format selector**: turns the `ydl_opts` table into a total function from
  the stripped choice, quality and storage path to an options record, or
  to nothing for a choice off the menu. (`format_selector.dfy`)
- **Retry loop**: a recursive function over the engine's successive download
  outcomes. It records the verdict, the number of engine calls and the
  console/log notices. The progress hook is modelled as a fold over status
  events. (`retry.dfy`, `progress.dfy`)
- **Gates and batch mode**: the storage, probe and choice gates of
  `download_video_or_audio`, and the comma splitting of `batch_download`,
  which runs one download per piece, in order. (`downloader.dfy`)

Python's `str.strip()`, `str.split(',')` and POSIX `os.path.join` are modelled
in `text.dfy`. `Strip` scans from both ends the way CPython does, and strips
exactly the characters for which `str.isspace()` holds.

Two details of the code that the model follows:
- The size reads `'Unknown'` whenever the quotient `total // 1024**2` is not
  positive. That covers any total under 1 MiB, not only a zero sum.
- `retries` is a parameter of `download_video_or_audio` (default 3).
  `range(retries)` makes no attempt at all when `retries <= 0`. After that,
  only the final failure message is shown.

Modelling choices:
- Heights and audio bitrates are naturals. The engine reports `abr` as a
  float.
- `filesize` is an integer.
- Dafny's `/` is Euclidean. For the positive divisor 1048576 it equals
  Python's `//`.

## Model

| member | source | states |
|---|---|---|
| Streams.VideoCandidates | yt.py:32 | a format is a video candidate exactly when its `vcodec` is not `'none'` (a missing key counts as not `'none'`) and its `height` is present |
| Streams.AudioCandidates | yt.py:33 | a format is an audio candidate exactly when its `acodec` is not `'none'` and its `abr` is present |
| Streams.FilterAppend | yt.py:32-33 | the candidate lists keep the engine's order: filtering a concatenation is the concatenation of the filtered parts |
| Streams.Max | yt.py:35-36 | `max(..., key=...)` on a non-empty list returns an element with the largest key, and no earlier element has that key (first maximum wins ties) |
| Streams.FirstMaxUnique | yt.py:35-36 | the first-maximum position is unique, so `Max` is the only answer Python's `max` can give |
| Streams.BestOf | yt.py:41-42 | with no candidates the field is the sentinel text; otherwise it is a number held by some candidate and no candidate's key exceeds it |
| Streams.SizeTotalNonNegative | yt.py:37 | when no reported size is negative, the summed size is non-negative |
| Streams.UnknownSizeIgnored | yt.py:37 | a format with a missing or zero `filesize` contributes nothing to the sum, wherever it stands |
| Streams.EstimatedSize | yt.py:37-43 | the size reads `'Unknown'` exactly when the total is below 1 MiB; otherwise it is the n ≥ 1 with n·2²⁰ ≤ total < (n+1)·2²⁰ |
| Streams.Summarize | yt.py:32-44 | the summary carries the title, the largest video height or "No video available", the largest audio bitrate or "No audio available", and the size estimate of the video candidates only |
| Streams.Probe | yt.py:27-48 | the probe yields nothing exactly when the engine raised or the reply has no `formats` key; otherwise it yields the summary of the reported formats |
| Streams.AudioOnlyScenario | yt.py:32-43 | a single audio-only format at 128 kbps gives no video, a bitrate of 128 and an unknown size, without raising |
| Text.Strip | yt.py:73-74 | the stripped text is a slice of the input that neither starts nor ends with whitespace, and outside it the input holds only whitespace |
| Text.StrippedIsStrip | yt.py:73-74 | any slice meeting that description equals `Strip`'s result, so the description determines `str.strip()` |
| Text.StripIdempotent | yt.py:143-145 | `str.strip()` is idempotent: stripping a stripped string changes nothing |
| Text.Split | yt.py:143 | splitting on a comma gives one more piece than there are commas; no piece holds a comma; joining the pieces with commas restores the input; empty pieces are kept |
| Text.SplitJoin | yt.py:143 | splitting the comma-join of comma-free pieces gives those pieces back, so split and join are inverses |
| Text.PathJoin | yt.py:85 | `os.path.join(dir, name)` for a relative name starts with `dir`, ends with `name`, and inserts one `/` exactly when `dir` is non-empty and does not already end with one |
| FormatSelector.StoragePath | yt.py:52 | an absent or empty custom path falls back to `/sdcard/Download`; a non-empty one is used as given; the result is never empty |
| FormatSelector.Select | yt.py:76-110 | options are produced exactly for the choices "1" to "4", and they always write to `storage_path/%(title)s.%(ext)s` |
| FormatSelector.SelectRecoverable | yt.py:77-107 | the options identify the choice that produced them, and the quality verbatim for mp3 (bitrate) and mp4/webm (height cap); wav records no quality |
| FormatSelector.SelectShape | yt.py:77-107 | "1"/"2" select `bestaudio/best` with one FFmpegExtractAudio post-processor; "3"/"4" select `bestvideo[height<=quality]+bestaudio/best` with a merge container |
| FormatSelector.OffMenuRejected | yt.py:108-110 | "5", an empty line or "mp3" select nothing |
| FormatSelector.WavIgnoresQuality | yt.py:87-95 | the wav options are the same whatever quality was typed |
| FormatSelector.OutputInStorage | yt.py:85 | every selected template lies inside the storage directory and ends in `%(title)s.%(ext)s` |
| Retry.Loop | yt.py:112-137 | from any iteration on: every call but the last one made raised; on success the last call returned; on failure all iterations were used and every call raised; one "Downloading" notice per call; every retry notice comes right after a logged error with the same call number, below `retries`; a successful trail holds no final failure message |
| Retry.LoopOrdered | yt.py:112-136 | the notices are in call order: the error logged for a raising call carries that call's number, and every such error before the last iteration is followed at once by a retry notice; the error of the last iteration gets none |
| Retry.LoopVerdict | yt.py:112-131 | the loop succeeds exactly when one of the remaining calls returns |
| Retry.LoopNoticed | yt.py:132-136 | every call that raised has its own error logged, with its number and its exception message, and every such call before the last iteration has its own retry notice |
| Retry.Run | yt.py:112-138 | at most `retries` engine calls; success exactly when one of the first `retries` outcomes is ok; failure uses every iteration |
| Retry.AllErrorsExhaust | yt.py:112-138 | an engine that always raises gets exactly `retries` calls, `retries - 1` retry notices (one for each call but the last, each with its error logged), and the final failure message last |
| Retry.FirstOkStops | yt.py:127-131 | if call k is the first to return, exactly k calls are made with k - 1 retry notices, and the run succeeds |
| Retry.NoIterations | yt.py:112-138 | with `retries <= 0` the engine is never called and only the final failure message is shown |
| Progress.FeedShowsLast | yt.py:119-124 | folding `Progress.Hook` (the model of `hook`) over the events, the progress bar shows what the latest "downloading" or "finished" event set; other statuses leave it unchanged |
| Progress.FinishedShowsFull | yt.py:123-124 | a "finished" event sets the bar to 100 whatever it showed before |
| Progress.DownloadingShowsPercent | yt.py:120-122 | a "downloading" event sets the bar to its percent, or to 0 when the percent is missing |
| Downloader.Download | yt.py:50-138 | a failed storage check stops first, then a failed probe, then a choice off the menu; only past all three gates does the retry loop run, with the selected options and the probed title; calls never exceed the retry bound |
| Downloader.AbortMeansNoCalls | yt.py:54-110 | a failed storage check, a failed probe or an invalid choice means zero download calls, and the stage records the stripped choice (the printed message itself does not show it) |
| Downloader.BatchUrls | yt.py:143-145 | the URLs are the comma pieces of the stripped line, each stripped; no URL contains a comma |
| Downloader.Batch | yt.py:140-145 | one download per piece, in input order, each with 3 retries and only its own answers, so a failure the code catches does not affect later pieces |
| Downloader.TwoUrls | yt.py:143-145 | a line "a, b" yields exactly the two URLs a and b, in that order |
| Downloader.TrailingComma | yt.py:143-145 | a trailing comma yields an extra empty URL, which is still dispatched |

## Left out

- The `yt_dlp` engine. `extract_info` becomes a `ProbeReply` parameter. Each
  `download` call becomes one entry of a sequence of attempt outcomes.
- Retry.Run and Downloader.Download need the outcome sequence to hold at
  least `retries` entries, one per engine call the loop may make.
- Downloader.Batch needs one world per URL. A world is the answers that URL
  gets from the outside.
- `check_storage_access` (filesystem existence, directory creation,
  `PermissionError`). Only its boolean result is modelled.
- Downloader.Batch: the pieces are independent only for the failures the
  code catches. An uncaught `OSError` from the storage check (such as
  `NotADirectoryError` for a path below a regular file) or an `EOFError`
  from `input()` ends the whole batch at that URL; the model has no such
  outcome.
- `rich` console output, the rendering of the `Progress` bar and the log
  file. The retry loop records its messages as `Notice` values. The messages
  of the abort paths show up only as the `Stage` where the download stopped.
- The information display and the format menu (yt.py:62-71).
- The `input()` prompts and the `__main__` mode dispatch (yt.py:147-158).
  The typed lines are parameters. The model strips the choice and quality
  lines as the code does.
- Parsing the `_percent_str` float. The percent is a whole number, and a
  missing one reads as 0.
- Assigning `ydl_opts['progress_hooks']` after the engine object is built
  (yt.py:126). Whether the engine ever calls the hook depends on library
  internals. The hook is modelled on its own: `Feed` folds it over any event
  sequence from any starting value, and nothing ties those events to an
  attempt of the retry loop.
- Exceptions inside `get_video_audio_info` other than an engine error or a
  missing `formats` key. An example is a format whose `height` cannot be
  compared.
- An exception raised while the engine object is being built, before
  "Downloading..." is printed. Every attempt is taken to show that notice.

=== FILE: downloader.dfy ===
/** `download_video_or_audio` and `batch_download` (yt.py): the gates that
    stop a download before the engine is called, the retry loop they lead
    to, and the sequential processing of a comma-separated URL list. What
    the outside world answers for one URL is a parameter. */
module Downloader {
  import opened Wrappers
  import Text
  import Streams
  import FormatSelector
  import Retry

  /** Everything the program learns from outside while handling one URL:
      whether the storage directory is usable, the engine's probe reply,
      the two lines typed at the format and quality prompts (before
      `.strip()`), and the outcomes of successive download calls. */
  datatype UrlWorld = UrlWorld(
    storageOk: bool,
    probe: Streams.ProbeReply,
    choiceLine: string,
    qualityLine: string,
    outcomes: seq<Retry.Attempt>)

  /** Where handling one URL stopped. */
  datatype Stage =
    | StorageDenied
    | ProbeFailed
    | InvalidChoice(choice: string)
    | Ran(info: Streams.MediaInfo, options: FormatSelector.Options, report: Retry.Report)

  datatype Job = Job(url: string, storagePath: string, stage: Stage)

  /** Number of engine download calls made for a job. */
  function EngineCalls(j: Job): nat {
    if j.stage.Ran? then j.stage.report.attempts else 0
  }

  /** `download_video_or_audio(url, retries, custom_path)`. The storage
      check comes first, then the probe, then the format choice; each
      failure returns before the engine is asked to download. */
  function Download(url: string, retries: int, custom: Option<string>, w: UrlWorld): (j: Job)
    requires retries <= |w.outcomes|
    ensures j.url == url && j.storagePath == FormatSelector.StoragePath(custom)
    ensures j.stage == StorageDenied <==> !w.storageOk
    ensures j.stage == ProbeFailed <==> w.storageOk && Streams.Probe(w.probe).None?
    ensures j.stage.InvalidChoice? <==>
              w.storageOk && Streams.Probe(w.probe).Some? && Text.Strip(w.choiceLine) !in FormatSelector.ValidChoices
    ensures j.stage.InvalidChoice? ==> j.stage.choice == Text.Strip(w.choiceLine)
    ensures j.stage.Ran? ==>
              && j.stage.info == Streams.Probe(w.probe).value
              && Some(j.stage.options)
                 == FormatSelector.Select(Text.Strip(w.choiceLine), Text.Strip(w.qualityLine), j.storagePath)
              && j.stage.report == Retry.Run(j.stage.info.title, retries, w.outcomes)
    ensures EngineCalls(j) <= Retry.Bound(retries)
  {
    var path := FormatSelector.StoragePath(custom);
    if !w.storageOk then Job(url, path, StorageDenied)
    else match Streams.Probe(w.probe)
      case None => Job(url, path, ProbeFailed)
      case Some(info) =>
        var choice := Text.Strip(w.choiceLine);
        var quality := Text.Strip(w.qualityLine);
        match FormatSelector.Select(choice, quality, path)
        case None => Job(url, path, InvalidChoice(choice))
        case Some(opts) => Job(url, path, Ran(info, opts, Retry.Run(info.title, retries, w.outcomes)))
  }

  /** Any abort gate means the engine is never asked to download. */
  lemma AbortMeansNoCalls(url: string, retries: int, custom: Option<string>, w: UrlWorld)
    requires retries <= |w.outcomes|
    requires !w.storageOk || Streams.Probe(w.probe).None?
             || Text.Strip(w.choiceLine) !in FormatSelector.ValidChoices
    ensures EngineCalls(Download(url, retries, custom, w)) == 0
    ensures !Download(url, retries, custom, w).stage.Ran?
    ensures w.storageOk && Streams.Probe(w.probe).Some? ==>
              Download(url, retries, custom, w).stage == InvalidChoice(Text.Strip(w.choiceLine))
  {
  }

  /** The URLs `batch_download` works through: the input line stripped,
      split at every comma, and each piece stripped. */
  function BatchUrls(line: string): (urls: seq<string>)
    ensures |urls| == |Text.Split(Text.Strip(line), ',')|
    ensures forall i :: 0 <= i < |urls| ==> urls[i] == Text.Strip(Text.Split(Text.Strip(line), ',')[i])
    ensures forall i :: 0 <= i < |urls| ==> ',' !in urls[i]
  {
    var pieces := Text.Split(Text.Strip(line), ',');
    var urls := seq(|pieces|, i requires 0 <= i < |pieces| => Text.Strip(pieces[i]));
    assert forall i :: 0 <= i < |urls| ==> ',' !in urls[i] by {
      forall i | 0 <= i < |urls| ensures ',' !in urls[i] {
        if ',' in urls[i] {
          Text.StripKeepsChars(pieces[i], ',');
        }
      }
    }
    urls
  }

  /** One download per URL from position `i` on, in order, each with the
      shared custom path and the default retry count. */
  function RunFrom(urls: seq<string>, custom: Option<string>, worlds: seq<UrlWorld>, i: nat): (jobs: seq<Job>)
    requires i <= |urls| == |worlds|
    requires forall k :: 0 <= k < |worlds| ==> |worlds[k].outcomes| >= Retry.DefaultRetries
    ensures |jobs| == |urls| - i
    ensures forall k :: 0 <= k < |jobs| ==>
              jobs[k] == Download(urls[i + k], Retry.DefaultRetries, custom, worlds[i + k])
    decreases |urls| - i
  {
    if i == |urls| then []
    else [Download(urls[i], Retry.DefaultRetries, custom, worlds[i])] + RunFrom(urls, custom, worlds, i + 1)
  }

  /** `batch_download(custom_path)`: one download per piece of the line, in
      order, each with the default three attempts; what happens to one
      URL depends only on that URL and its own answers, so a failure does
      not stop the ones after it. */
  function Batch(line: string, custom: Option<string>, worlds: seq<UrlWorld>): (jobs: seq<Job>)
    requires |worlds| == |BatchUrls(line)|
    requires forall k :: 0 <= k < |worlds| ==> |worlds[k].outcomes| >= Retry.DefaultRetries
    ensures |jobs| == |BatchUrls(line)|
    ensures forall k :: 0 <= k < |jobs| ==> jobs[k].url == BatchUrls(line)[k]
    ensures forall k :: 0 <= k < |jobs| ==> jobs[k] == Download(BatchUrls(line)[k], Retry.DefaultRetries, custom, worlds[k])
  {
    RunFrom(BatchUrls(line), custom, worlds, 0)
  }

  /** A line that splits into two pieces yields their stripped forms. */
  lemma BatchOfTwo(line: string, p: string, q: string)
    requires Text.Split(Text.Strip(line), ',') == [p, q]
    ensures BatchUrls(line) == [Text.Strip(p), Text.Strip(q)]
  {
    var u := BatchUrls(line);
    var pieces := Text.Split(Text.Strip(line), ',');
    assert |u| == 2;
    assert u[0] == Text.Strip(pieces[0]);
    assert u[1] == Text.Strip(pieces[1]);
  }

  /** A line with one comma and no surrounding whitespace yields the two
      sides, each stripped. */
  lemma LineOfTwo(a: string, c: string)
    requires ',' !in a && ',' !in c
    requires a != [] && !Text.IsSpace(a[0])
    requires c != [] && !Text.IsSpace(c[|c| - 1])
    ensures BatchUrls(a + [','] + c) == [Text.Strip(a), Text.Strip(c)]
  {
    var line := a + [','] + c;
    Text.StripUnchanged(line);
    Text.SplitAtOne(a, c, ',');
    BatchOfTwo(line, a, c);
  }

  /** A line "a, b" of two URLs yields the two URLs, in order, with the
      blank after the comma trimmed. */
  lemma TwoUrls(a: string, b: string)
    requires a != [] && b != [] && ',' !in a && ',' !in b
    requires !Text.IsSpace(a[0]) && !Text.IsSpace(a[|a| - 1])
    requires !Text.IsSpace(b[0]) && !Text.IsSpace(b[|b| - 1])
    ensures BatchUrls(a + ", " + b) == [a, b]
  {
    var c := [' '] + b;
    assert a + ", " + b == a + [','] + c;
    LineOfTwo(a, c);
    Text.StripUnchanged(a);
    Text.StripLeadingSpace(' ', b);
  }

  /** A trailing comma leaves an empty last piece, which is still handed
      to a download of its own. */
  lemma TrailingComma(a: string)
    requires a != [] && ',' !in a
    requires !Text.IsSpace(a[0]) && !Text.IsSpace(a[|a| - 1])
    ensures BatchUrls(a + ",") == [a, ""]
  {
    var line := a + ",";
    assert line == a + [','] + [];
    Text.StripUnchanged(line);
    Text.SplitAtOne(a, [], ',');
    BatchOfTwo(line, a, []);
    Text.StripUnchanged(a);
  }
}

=== FILE: format_selector.dfy ===
/** The `ydl_opts` table of `download_video_or_audio` (yt.py): how the
    user's format choice and quality become options for the download
    engine, and where the file is written. */
module FormatSelector {
  import opened Wrappers
  import Text

  const DefaultStoragePath: string := "/sdcard/Download"
  /** The engine's file-name template: the title and the extension it picks. */
  const OutputTemplate: string := "%(title)s.%(ext)s"
  const BestAudio: string := "bestaudio/best"
  const VideoPrefix: string := "bestvideo[height<="
  const VideoSuffix: string := "]+bestaudio/best"
  const ExtractAudio: string := "FFmpegExtractAudio"
  const ValidChoices: set<string> := {"1", "2", "3", "4"}

  /** An entry of `postprocessors`: the post-processor `key`, its
      `preferredcodec` and its `preferredquality` when given. */
  datatype PostProcessor = PostProcessor(key: string, codec: string, quality: Option<string>)

  /** The options dictionary handed to the engine for every attempt. */
  datatype Options = Options(
    format: string,
    postprocessors: seq<PostProcessor>,
    mergeOutputFormat: Option<string>,
    outtmpl: string)

  /** The storage directory: the custom path when one was given and is
      non-empty, the default download directory otherwise. */
  function StoragePath(custom: Option<string>): (r: string)
    ensures r != []
    ensures custom.Some? && custom.value != [] ==> r == custom.value
    ensures custom.None? || custom.value == [] ==> r == DefaultStoragePath
  {
    match custom
    case Some(p) => if p != [] then p else DefaultStoragePath
    case None => DefaultStoragePath
  }

  /** The engine's format expression for a video choice: the best video no
      taller than `quality`, merged with the best audio, or else the best
      single file. */
  function VideoFormat(quality: string): string {
    VideoPrefix + quality + VideoSuffix
  }

  /** Recovers the height cap from a video format expression. */
  function HeightCap(format: string): Option<string> {
    var lo := |VideoPrefix|;
    if |format| >= lo + |VideoSuffix|
       && format[..lo] == VideoPrefix
       && format[|format| - |VideoSuffix|..] == VideoSuffix
    then Some(format[lo..|format| - |VideoSuffix|])
    else None
  }

  /** The `if choice == ... elif ... else` table. Any choice other than
      "1" to "4" yields None: the caller prints the error and returns. */
  function Select(choice: string, quality: string, storagePath: string): (r: Option<Options>)
    ensures r.Some? <==> choice in ValidChoices
    ensures r.Some? ==> r.value.outtmpl == Text.PathJoin(storagePath, OutputTemplate)
  {
    var outtmpl := Text.PathJoin(storagePath, OutputTemplate);
    if choice == "1" then
      Some(Options(BestAudio, [PostProcessor(ExtractAudio, "mp3", Some(quality))], None, outtmpl))
    else if choice == "2" then
      Some(Options(BestAudio, [PostProcessor(ExtractAudio, "wav", None)], None, outtmpl))
    else if choice == "3" then
      Some(Options(VideoFormat(quality), [], Some("mp4"), outtmpl))
    else if choice == "4" then
      Some(Options(VideoFormat(quality), [], Some("webm"), outtmpl))
    else None
  }

  /** Reads back which choice produced a set of options: audio choices
      extract with a codec, video choices merge into a container. */
  function ChoiceOf(o: Options): Option<string> {
    if o.format == BestAudio && |o.postprocessors| == 1 && o.postprocessors[0].key == ExtractAudio
       && o.mergeOutputFormat.None? then
      (if o.postprocessors[0].codec == "mp3" then Some("1")
       else if o.postprocessors[0].codec == "wav" then Some("2")
       else None)
    else if HeightCap(o.format).Some? && o.postprocessors == [] then
      (if o.mergeOutputFormat == Some("mp4") then Some("3")
       else if o.mergeOutputFormat == Some("webm") then Some("4")
       else None)
    else None
  }

  /** Reads back the quality the options carry: the mp3 bitrate, or the
      video height cap; wav options carry none. */
  function QualityOf(o: Options): Option<string> {
    if |o.postprocessors| == 1 then o.postprocessors[0].quality
    else HeightCap(o.format)
  }

  /** The selected options record the choice and, except for wav, the
      quality verbatim, so distinct inputs give distinct options. */
  lemma SelectRecoverable(choice: string, quality: string, storagePath: string)
    requires choice in ValidChoices
    ensures var o := Select(choice, quality, storagePath).value;
      && ChoiceOf(o) == Some(choice)
      && QualityOf(o) == (if choice == "2" then None else Some(quality))
  {
    var v := VideoFormat(quality);
    assert v[..|VideoPrefix|] == VideoPrefix;
    assert v[|v| - |VideoSuffix|..] == VideoSuffix;
    assert v[|VideoPrefix|..|v| - |VideoSuffix|] == quality;
    assert BestAudio != v by {
      assert BestAudio[4] != v[4];
    }
  }

  /** Audio choices take the best audio stream and convert it; video
      choices cap the height and merge into a container. */
  lemma SelectShape(choice: string, quality: string, storagePath: string)
    requires choice in ValidChoices
    ensures var o := Select(choice, quality, storagePath).value;
      && (choice in {"1", "2"} <==> o.format == BestAudio)
      && (choice in {"1", "2"} <==> |o.postprocessors| == 1 && o.postprocessors[0].key == ExtractAudio)
      && (choice in {"3", "4"} <==> HeightCap(o.format) == Some(quality))
      && (choice in {"3", "4"} <==> o.mergeOutputFormat.Some?)
  {
    SelectRecoverable(choice, quality, storagePath);
    var v := VideoFormat(quality);
    assert BestAudio != v by {
      assert BestAudio[4] != v[4];
    }
    assert HeightCap(BestAudio).None?;
  }

  /** A choice outside the menu, such as "5" or an empty line, selects
      nothing. */
  lemma OffMenuRejected(quality: string, storagePath: string)
    ensures Select("5", quality, storagePath).None?
    ensures Select("", quality, storagePath).None?
    ensures Select("mp3", quality, storagePath).None?
  {
  }

  /** The wav choice does not depend on the quality typed in. */
  lemma WavIgnoresQuality(q1: string, q2: string, storagePath: string)
    ensures Select("2", q1, storagePath) == Select("2", q2, storagePath)
  {
  }

  /** Every selected option set writes `<title>.<ext>` inside the storage
      directory. */
  lemma OutputInStorage(choice: string, quality: string, storagePath: string)
    requires choice in ValidChoices
    requires storagePath != []
    ensures var t := Select(choice, quality, storagePath).value.outtmpl;
      && t[..|storagePath|] == storagePath
      && t[|t| - |OutputTemplate|..] == OutputTemplate
      && (storagePath[|storagePath| - 1] != '/' ==> t == storagePath + "/" + OutputTemplate)
  {
  }
}

=== FILE: progress.dfy ===
/** The progress hook installed for each download attempt (yt.py): the
    engine reports status events and the hook moves a 0..100 progress bar.
    The percent text the engine sends is taken as an already parsed whole
    number; a missing percent reads as the code's default, 0. */
module Progress {
  import opened Wrappers

  /** One call of the hook: the event's `status` and its `_percent_str`
      when present. */
  datatype HookEvent = HookEvent(status: string, percent: Option<int>)

  const FinishedPercent: int := 100

  /** `hook(d)`: a "downloading" event shows its percent, a "finished"
      event shows 100, and any other status leaves the bar where it was. */
  function Hook(completed: int, d: HookEvent): int {
    if d.status == "downloading" then d.percent.Or(0)
    else if d.status == "finished" then FinishedPercent
    else completed
  }

  /** Whether an event moves the bar at all. */
  predicate Moves(d: HookEvent) {
    d.status == "downloading" || d.status == "finished"
  }

  /** The bar after the hook has seen `events` in order, starting from
      `completed`, which may be any value; nothing ties the events to an
      attempt of the retry loop. */
  function Feed(completed: int, events: seq<HookEvent>): int
    decreases |events|
  {
    if events == [] then completed else Feed(Hook(completed, events[0]), events[1..])
  }

  /** Reference reading of the bar: the value set by the latest event that
      moves it, or `completed` when none does. */
  function LastShown(completed: int, events: seq<HookEvent>): int {
    if events == [] then completed
    else
      var d := events[|events| - 1];
      if Moves(d) then Hook(completed, d) else LastShown(completed, events[..|events| - 1])
  }

  /** The bar shows what the latest moving event set, whatever came before. */
  lemma {:induction false} FeedShowsLast(completed: int, events: seq<HookEvent>)
    ensures Feed(completed, events) == LastShown(completed, events)
    decreases |events|
  {
    if events != [] {
      FeedShowsLast(Hook(completed, events[0]), events[1..]);
      LastShownStep(completed, events);
    }
  }

  /** Peeling the first event off `LastShown`. */
  lemma {:induction false} LastShownStep(completed: int, events: seq<HookEvent>)
    requires events != []
    ensures LastShown(completed, events) == LastShown(Hook(completed, events[0]), events[1..])
    decreases |events|
  {
    if |events| > 1 {
      var d := events[|events| - 1];
      var init := events[..|events| - 1];
      assert events[1..][..|events| - 2] == init[1..];
      assert events[1..][|events| - 2] == d;
      if !Moves(d) {
        LastShownStep(completed, init);
        assert init[0] == events[0];
      }
    }
  }

  /** A "finished" event leaves the bar at 100, whatever it showed before. */
  lemma FinishedShowsFull(completed: int, events: seq<HookEvent>, rest: seq<HookEvent>)
    requires forall k :: 0 <= k < |rest| ==> !Moves(rest[k])
    ensures Feed(completed, events + [HookEvent("finished", None)] + rest) == FinishedPercent
  {
    var all := events + [HookEvent("finished", None)] + rest;
    FeedShowsLast(completed, all);
    LastShownSkips(completed, events + [HookEvent("finished", None)], rest);
  }

  /** A "downloading" event shows its percent, whatever the bar showed
      before (a missing percent shows 0). */
  lemma DownloadingShowsPercent(completed: int, events: seq<HookEvent>, p: Option<int>, rest: seq<HookEvent>)
    requires forall k :: 0 <= k < |rest| ==> !Moves(rest[k])
    ensures Feed(completed, events + [HookEvent("downloading", p)] + rest) == p.Or(0)
  {
    var all := events + [HookEvent("downloading", p)] + rest;
    FeedShowsLast(completed, all);
    LastShownSkips(completed, events + [HookEvent("downloading", p)], rest);
  }

  /** Events that do not move the bar do not change what it shows. */
  lemma {:induction false} LastShownSkips(completed: int, events: seq<HookEvent>, rest: seq<HookEvent>)
    requires forall k :: 0 <= k < |rest| ==> !Moves(rest[k])
    ensures LastShown(completed, events + rest) == LastShown(completed, events)
    decreases |rest|
  {
    if rest != [] {
      var all := events + rest;
      assert all[..|all| - 1] == events + rest[..|rest| - 1];
      LastShownSkips(completed, events, rest[..|rest| - 1]);
    } else {
      assert events + rest == events;
    }
  }
}

=== FILE: retry.dfy ===
/** The retry loop of `download_video_or_audio` (yt.py): up to `retries`
    calls of the download engine, stopping at the first that returns. The
    engine is represented by the outcomes of its successive calls. */
module Retry {
  import opened Wrappers

  /** The outcome of one `ydl.download([url])` call: it returned, or it
      raised an exception with the given message. */
  datatype Attempt = Ok | Error(message: string)

  /** What the loop shows on the console or writes to the log; attempt
      numbers are 1-based, as in the messages, and "Downloading..." shows
      none. */
  datatype Notice =
    | Downloading
    | Completed
    | LoggedSuccess(title: Option<string>)
    | ShownError(message: string)
    | LoggedError(attempt: nat, retries: int, message: string)
    | RetryNotice(attempt: nat, retries: int)
    | GaveUp

  datatype Verdict = Succeeded | Failed

  /** How the loop ended, how many engine calls it made, and what it showed. */
  datatype Report = Report(verdict: Verdict, attempts: nat, trail: seq<Notice>)

  const DefaultRetries: int := 3

  /** The number of iterations of `range(retries)`. */
  function Bound(retries: int): nat {
    if retries > 0 then retries else 0
  }

  /** The number of "Downloading" notices, one per engine call. */
  function Downloads(trail: seq<Notice>): nat {
    if trail == [] then 0 else (if trail[0].Downloading? then 1 else 0) + Downloads(trail[1..])
  }

  /** The number of retry notices. */
  function RetryNotices(trail: seq<Notice>): nat {
    if trail == [] then 0 else (if trail[0].RetryNotice? then 1 else 0) + RetryNotices(trail[1..])
  }

  /** Both counts add up over a concatenation. */
  lemma {:induction false} CountsAppend(a: seq<Notice>, b: seq<Notice>)
    ensures Downloads(a + b) == Downloads(a) + Downloads(b)
    ensures RetryNotices(a + b) == RetryNotices(a) + RetryNotices(b)
  {
    if a == [] {
      assert a + b == b;
    } else {
      assert (a + b)[1..] == a[1..] + b;
      CountsAppend(a[1..], b);
    }
  }

  /** Every retry notice comes right after the logged error of the call it
      retries, carries that call's number, and names a call that was not the
      last iteration. */
  ghost predicate RetriesPlaced(trail: seq<Notice>, retries: int) {
    forall n :: 0 <= n < |trail| && trail[n].RetryNotice? ==>
      0 < n && trail[n - 1].LoggedError? && trail[n - 1].attempt == trail[n].attempt < retries
  }

  /** Retry notices stay placed when two trails are joined, provided the
      second does not open with one. */
  lemma {:induction false} PlacedAppend(a: seq<Notice>, b: seq<Notice>, retries: int)
    requires RetriesPlaced(a, retries) && RetriesPlaced(b, retries)
    requires b != [] ==> !b[0].RetryNotice?
    ensures RetriesPlaced(a + b, retries)
  {
    forall n | 0 <= n < |a + b| && (a + b)[n].RetryNotice?
      ensures 0 < n && (a + b)[n - 1].LoggedError? && (a + b)[n - 1].attempt == (a + b)[n].attempt < retries
    {
      if n < |a| {
        assert (a + b)[n] == a[n] && (a + b)[n - 1] == a[n - 1];
      } else {
        assert (a + b)[n] == b[n - |a|];
        assert n - |a| > 0;
        assert (a + b)[n - 1] == b[n - 1 - |a|];
      }
    }
  }

  /** Every logged error carries the number of the call it reports: the
      calls before this trail, `first`, plus the calls the trail has shown up
      to it. */
  ghost predicate ErrorsNumbered(trail: seq<Notice>, first: int) {
    forall n :: 0 <= n < |trail| && trail[n].LoggedError? ==>
      trail[n].attempt == first + Downloads(trail[..n])
  }

  /** Every logged error of a call before the last iteration is followed at
      once by a retry notice. */
  ghost predicate ErrorsRetried(trail: seq<Notice>, retries: int) {
    forall n :: 0 <= n < |trail| && trail[n].LoggedError? && trail[n].attempt < retries ==>
      n + 1 < |trail| && trail[n + 1].RetryNotice?
  }

  /** Numbering carries over a join when the second trail counts on from
      the calls the first one showed. */
  lemma {:induction false} NumberedAppend(a: seq<Notice>, b: seq<Notice>, first: int)
    requires ErrorsNumbered(a, first) && ErrorsNumbered(b, first + Downloads(a))
    ensures ErrorsNumbered(a + b, first)
  {
    forall n | 0 <= n < |a + b| && (a + b)[n].LoggedError?
      ensures (a + b)[n].attempt == first + Downloads((a + b)[..n])
    {
      if n < |a| {
        assert (a + b)[n] == a[n] && (a + b)[..n] == a[..n];
      } else {
        assert (a + b)[n] == b[n - |a|];
        assert (a + b)[..n] == a + b[..n - |a|];
        CountsAppend(a, b[..n - |a|]);
      }
    }
  }

  /** A retry notice right after each non-final error survives a join. */
  lemma {:induction false} RetriedAppend(a: seq<Notice>, b: seq<Notice>, retries: int)
    requires ErrorsRetried(a, retries) && ErrorsRetried(b, retries)
    ensures ErrorsRetried(a + b, retries)
  {
    forall n | 0 <= n < |a + b| && (a + b)[n].LoggedError? && (a + b)[n].attempt < retries
      ensures n + 1 < |a + b| && (a + b)[n + 1].RetryNotice?
    {
      if n < |a| {
        assert (a + b)[n] == a[n];
        assert (a + b)[n + 1] == a[n + 1];
      } else {
        assert (a + b)[n] == b[n - |a|];
        assert (a + b)[n + 1] == b[n + 1 - |a|];
      }
    }
  }

  /** The order of the notices of a trail that starts with call
      `attempt + 1`: logged errors numbered by call, a retry notice right
      after each that is not the last iteration, and none elsewhere. */
  ghost predicate Ordered(trail: seq<Notice>, attempt: nat, retries: int) {
    && trail != [] && !trail[0].RetryNotice?
    && RetriesPlaced(trail, retries)
    && ErrorsNumbered(trail, attempt)
    && ErrorsRetried(trail, retries)
  }

  /** One raised iteration in front of the rest of the loop keeps the order. */
  lemma OrderedStep(attempt: nat, retries: int, m: string, rest: seq<Notice>)
    requires Ordered(rest, attempt + 1, retries)
    ensures Ordered(Raised(attempt, retries, m) + rest, attempt, retries)
  {
    var here := Raised(attempt, retries, m);
    RaisedNotices(attempt, retries, m);
    RaisedOrder(attempt, retries, m);
    PlacedAppend(here, rest, retries);
    NumberedAppend(here, rest, attempt);
    RetriedAppend(here, rest, retries);
  }

  /** Every call from `from` up to, not including, `to` raised. */
  ghost predicate AllRaise(outcomes: seq<Attempt>, from: nat, to: int)
    requires to <= |outcomes|
    decreases if from < to then to - from else 0
  {
    from < to ==> outcomes[from].Error? && AllRaise(outcomes, from + 1, to)
  }

  /** `AllRaise` says what its name says: every call in the range raised. */
  lemma {:induction false} AllRaiseMeans(outcomes: seq<Attempt>, from: nat, to: int)
    requires to <= |outcomes|
    ensures AllRaise(outcomes, from, to) <==> (forall k :: from <= k < to ==> outcomes[k].Error?)
    decreases if from < to then to - from else 0
  {
    if from < to {
      AllRaiseMeans(outcomes, from + 1, to);
    }
  }

  /** The loop from iteration `attempt` (0-based) on. Every call but the
      last one made raised; on success the last one returned, and on failure
      every remaining iteration was used and every call raised (so it
      succeeds exactly when some remaining call returns, as `LoopVerdict`
      states). One "Downloading" notice is shown per call, and every retry
      notice follows a logged error; `LoopOrdered` and `LoopNoticed` give
      the full order of the notices. */
  function Loop(title: Option<string>, retries: int, outcomes: seq<Attempt>, attempt: nat): (r: Report)
    requires retries <= |outcomes|
    requires attempt <= Bound(retries)
    ensures attempt <= r.attempts <= Bound(retries)
    ensures AllRaise(outcomes, attempt, r.attempts - 1)
    ensures r.verdict == Succeeded ==> attempt < r.attempts && outcomes[r.attempts - 1].Ok?
    ensures r.verdict == Failed ==> r.attempts == Bound(retries) && AllRaise(outcomes, attempt, r.attempts)
    ensures Downloads(r.trail) == r.attempts - attempt
    ensures RetryNotices(r.trail)
              == if r.verdict == Succeeded then r.attempts - 1 - attempt
                 else if retries > attempt then retries - 1 - attempt
                 else 0
    ensures |r.trail| > 0
    ensures r.trail[|r.trail| - 1] == if r.verdict == Succeeded then LoggedSuccess(title) else GaveUp
    ensures !r.trail[0].RetryNotice?
    ensures RetriesPlaced(r.trail, retries)
    ensures r.verdict == Succeeded ==> GaveUp !in r.trail
    decreases retries - attempt
  {
    if attempt >= retries then Report(Failed, attempt, [GaveUp])
    else match outcomes[attempt]
      case Ok =>
        var trail := Returned(title, attempt);
        ReturnedNotices(title, attempt, retries);
        Report(Succeeded, attempt + 1, trail)
      case Error(m) =>
        var rest := Loop(title, retries, outcomes, attempt + 1);
        var here := Raised(attempt, retries, m);
        RaisedNotices(attempt, retries, m);
        CountsAppend(here, rest.trail);
        PlacedAppend(here, rest.trail, retries);
        Report(rest.verdict, rest.attempts, here + rest.trail)
  }

  /** The loop from `attempt` on succeeds exactly when some remaining call
      returns. */
  lemma LoopVerdict(title: Option<string>, retries: int, outcomes: seq<Attempt>, attempt: nat)
    requires retries <= |outcomes|
    requires attempt <= Bound(retries)
    ensures Loop(title, retries, outcomes, attempt).verdict == Succeeded
        <==> exists k :: attempt <= k < retries && outcomes[k].Ok?
  {
    var r := Loop(title, retries, outcomes, attempt);
    AllRaiseMeans(outcomes, attempt, r.attempts);
    if r.verdict == Succeeded {
      assert attempt <= r.attempts - 1 < retries && outcomes[r.attempts - 1].Ok?;
    }
  }

  /** The loop's notices are in call order: each logged error carries the
      number of the call that raised, and each one before the last
      iteration is followed at once by its retry notice. */
  lemma {:induction false} LoopOrdered(title: Option<string>, retries: int, outcomes: seq<Attempt>, attempt: nat)
    requires retries <= |outcomes|
    requires attempt <= Bound(retries)
    ensures Ordered(Loop(title, retries, outcomes, attempt).trail, attempt, retries)
    decreases retries - attempt
  {
    if attempt < retries {
      match outcomes[attempt]
      case Ok =>
        ReturnedNotices(title, attempt, retries);
        ReturnedOrder(title, attempt, retries);
      case Error(m) =>
        LoopOrdered(title, retries, outcomes, attempt + 1);
        OrderedStep(attempt, retries, m, Loop(title, retries, outcomes, attempt + 1).trail);
    }
  }

  /** Every call from `attempt` up to `attempts` that raised has its own
      error logged, with its number and its message, and its own retry
      notice unless it was the last iteration. */
  ghost predicate EachNoticed(trail: seq<Notice>, attempts: nat, outcomes: seq<Attempt>, attempt: nat, retries: int)
    requires attempts <= |outcomes|
  {
    forall k :: attempt <= k < attempts && outcomes[k].Error? ==>
      && LoggedError(k + 1, retries, outcomes[k].message) in trail
      && (k + 1 < retries ==> RetryNotice(k + 1, retries) in trail)
  }

  /** A raising iteration in front of the rest of the loop notices its own
      call as well. */
  lemma NoticedStep(attempt: nat, retries: int, outcomes: seq<Attempt>, attempts: nat, rest: seq<Notice>)
    requires attempt < attempts <= |outcomes|
    requires outcomes[attempt].Error?
    requires EachNoticed(rest, attempts, outcomes, attempt + 1, retries)
    ensures EachNoticed(Raised(attempt, retries, outcomes[attempt].message) + rest, attempts, outcomes, attempt, retries)
  {
    var m := outcomes[attempt].message;
    var t := Raised(attempt, retries, m) + rest;
    RaisedOrder(attempt, retries, m);
    assert t[2] == LoggedError(attempt + 1, retries, m);
    assert attempt + 1 < retries ==> t[3] == RetryNotice(attempt + 1, retries);
  }

  /** Each failed call of the loop is noticed on its own: its error is
      logged with its number and message, and every failed call before the
      last iteration gets its own retry notice. */
  lemma {:induction false} LoopNoticed(title: Option<string>, retries: int, outcomes: seq<Attempt>, attempt: nat)
    requires retries <= |outcomes|
    requires attempt <= Bound(retries)
    ensures var r := Loop(title, retries, outcomes, attempt);
      EachNoticed(r.trail, r.attempts, outcomes, attempt, retries)
    decreases retries - attempt
  {
    var r := Loop(title, retries, outcomes, attempt);
    if attempt < retries && outcomes[attempt].Error? {
      var rest := Loop(title, retries, outcomes, attempt + 1);
      LoopRaised(title, retries, outcomes, attempt);
      assert r.trail == Raised(attempt, retries, outcomes[attempt].message) + rest.trail;
      assert r.attempts == rest.attempts;
      LoopNoticed(title, retries, outcomes, attempt + 1);
      NoticedStep(attempt, retries, outcomes, rest.attempts, rest.trail);
    } else if attempt < retries {
      LoopReturned(title, retries, outcomes, attempt);
      NoticedNone(r.trail, r.attempts, outcomes, attempt, retries);
    } else {
      NoticedNone(r.trail, r.attempts, outcomes, attempt, retries);
    }
  }

  /** A stretch of calls that raised nothing needs no notice. */
  lemma NoticedNone(trail: seq<Notice>, attempts: nat, outcomes: seq<Attempt>, attempt: nat, retries: int)
    requires attempt <= attempts <= attempt + 1 && attempts <= |outcomes|
    requires attempts == attempt + 1 ==> outcomes[attempt].Ok?
    ensures EachNoticed(trail, attempts, outcomes, attempt, retries)
  {
  }

  /** One unfolding of the loop at a returning call. */
  lemma LoopReturned(title: Option<string>, retries: int, outcomes: seq<Attempt>, attempt: nat)
    requires retries <= |outcomes|
    requires attempt < retries
    requires outcomes[attempt].Ok?
    ensures Loop(title, retries, outcomes, attempt) == Report(Succeeded, attempt + 1, Returned(title, attempt))
  {
  }

  /** One unfolding of the loop at a raising call. */
  lemma LoopRaised(title: Option<string>, retries: int, outcomes: seq<Attempt>, attempt: nat)
    requires retries <= |outcomes|
    requires attempt < retries
    requires outcomes[attempt].Error?
    ensures var rest := Loop(title, retries, outcomes, attempt + 1);
      Loop(title, retries, outcomes, attempt)
        == Report(rest.verdict, rest.attempts, Raised(attempt, retries, outcomes[attempt].message) + rest.trail)
  {
  }

  /** What one iteration shows when its call returns. */
  function Returned(title: Option<string>, attempt: nat): seq<Notice> {
    [Downloading, Completed, LoggedSuccess(title)]
  }

  /** What one iteration shows when its call raises: the error, and a retry
      notice unless it was the last iteration. */
  function Raised(attempt: nat, retries: int, m: string): seq<Notice> {
    [Downloading, ShownError(m), LoggedError(attempt + 1, retries, m)]
      + if attempt + 1 < retries then [RetryNotice(attempt + 1, retries)] else []
  }

  /** The counts of a single notice. */
  lemma CountsOne(x: Notice)
    ensures Downloads([x]) == (if x.Downloading? then 1 else 0)
    ensures RetryNotices([x]) == (if x.RetryNotice? then 1 else 0)
  {
    assert [x][1..] == [];
  }

  /** The counts of a three-notice sequence, notice by notice. */
  lemma CountsThree(x: Notice, y: Notice, z: Notice)
    ensures Downloads([x, y, z]) == Downloads([x]) + Downloads([y]) + Downloads([z])
    ensures RetryNotices([x, y, z]) == RetryNotices([x]) + RetryNotices([y]) + RetryNotices([z])
  {
    assert [x, y, z] == [x] + [y] + [z];
    CountsAppend([x], [y]);
    CountsAppend([x] + [y], [z]);
  }

  /** The notices of a returning iteration: one call, no retry notice. */
  lemma ReturnedNotices(title: Option<string>, attempt: nat, retries: int)
    ensures var t := Returned(title, attempt);
      && Downloads(t) == 1 && RetryNotices(t) == 0
      && RetriesPlaced(t, retries) && GaveUp !in t
  {
    CountsThree(Downloading, Completed, LoggedSuccess(title));
    CountsOne(Downloading);
    CountsOne(Completed);
    CountsOne(LoggedSuccess(title));
  }

  /** A returning iteration logs no error. */
  lemma ReturnedOrder(title: Option<string>, attempt: nat, retries: int)
    ensures ErrorsNumbered(Returned(title, attempt), attempt)
    ensures ErrorsRetried(Returned(title, attempt), retries)
  {
  }

  /** The notices of a raising iteration: one call, the error numbered by
      that call, and its retry notice unless it was the last iteration. */
  lemma RaisedNotices(attempt: nat, retries: int, m: string)
    ensures var t := Raised(attempt, retries, m);
      && Downloads(t) == 1
      && RetryNotices(t) == (if attempt + 1 < retries then 1 else 0)
      && RetriesPlaced(t, retries) && GaveUp !in t
      && t[0] == Downloading
  {
    var shown := [Downloading, ShownError(m), LoggedError(attempt + 1, retries, m)];
    var retry: seq<Notice> := if attempt + 1 < retries then [RetryNotice(attempt + 1, retries)] else [];
    assert Raised(attempt, retries, m) == shown + retry;
    CountsThree(Downloading, ShownError(m), LoggedError(attempt + 1, retries, m));
    CountsOne(Downloading);
    CountsOne(ShownError(m));
    CountsOne(LoggedError(attempt + 1, retries, m));
    CountsOne(RetryNotice(attempt + 1, retries));
    assert Downloads(retry) == 0 && RetryNotices(retry) == (if attempt + 1 < retries then 1 else 0);
    CountsAppend(shown, retry);
  }

  /** Where a raising iteration puts its error and its retry notice. */
  lemma RaisedOrder(attempt: nat, retries: int, m: string)
    ensures var t := Raised(attempt, retries, m);
      && t[2] == LoggedError(attempt + 1, retries, m)
      && (attempt + 1 < retries ==> t[3] == RetryNotice(attempt + 1, retries))
      && ErrorsNumbered(t, attempt) && ErrorsRetried(t, retries)
  {
    var t := Raised(attempt, retries, m);
    assert t[..2] == [Downloading] + [ShownError(m)];
    CountsAppend([Downloading], [ShownError(m)]);
    CountsOne(Downloading);
    CountsOne(ShownError(m));
    assert Downloads(t[..2]) == 1;
  }

  /** `for attempt in range(retries)` with its `try`/`except` body and the
      final failure message. */
  function Run(title: Option<string>, retries: int, outcomes: seq<Attempt>): (r: Report)
    requires retries <= |outcomes|
    ensures r.attempts <= Bound(retries)
    ensures r.verdict == Succeeded <==> exists k :: 0 <= k < retries && outcomes[k].Ok?
    ensures r.verdict == Succeeded ==> 0 < r.attempts && outcomes[r.attempts - 1].Ok?
    ensures forall k :: 0 <= k < r.attempts - 1 ==> outcomes[k].Error?
    ensures r.verdict == Failed ==> r.attempts == Bound(retries)
    ensures Downloads(r.trail) == r.attempts
  {
    LoopVerdict(title, retries, outcomes, 0);
    var r := Loop(title, retries, outcomes, 0);
    AllRaiseMeans(outcomes, 0, r.attempts - 1);
    r
  }

  /** When every call raises, exactly `retries` calls are made, a retry
      notice follows each but the last, and the final failure message ends
      the output. */
  lemma AllErrorsExhaust(title: Option<string>, retries: int, outcomes: seq<Attempt>)
    requires 0 < retries <= |outcomes|
    requires forall k :: 0 <= k < retries ==> outcomes[k].Error?
    ensures var r := Run(title, retries, outcomes);
      && r.verdict == Failed
      && r.attempts == retries
      && Downloads(r.trail) == retries
      && RetryNotices(r.trail) == retries - 1
      && r.trail[|r.trail| - 1] == GaveUp
      && EachNoticed(r.trail, retries, outcomes, 0, retries)
  {
    var r := Loop(title, retries, outcomes, 0);
    assert r.verdict == Failed;
    LoopNoticed(title, retries, outcomes, 0);
  }

  /** When call `k` (1-based) is the first to return, exactly `k` calls
      are made and the run succeeds; no call follows the successful one. */
  lemma FirstOkStops(title: Option<string>, retries: int, outcomes: seq<Attempt>, k: nat)
    requires retries <= |outcomes|
    requires 1 <= k <= retries
    requires outcomes[k - 1].Ok?
    requires forall j :: 0 <= j < k - 1 ==> outcomes[j].Error?
    ensures var r := Run(title, retries, outcomes);
      && r.verdict == Succeeded
      && r.attempts == k
      && Downloads(r.trail) == k
      && RetryNotices(r.trail) == k - 1
  {
    var r := Run(title, retries, outcomes);
    assert outcomes[r.attempts - 1].Ok?;
  }

  /** With no iterations (`retries <= 0`) the engine is never called and
      the run reports failure. */
  lemma NoIterations(title: Option<string>, retries: int, outcomes: seq<Attempt>)
    requires retries <= 0
    ensures Run(title, retries, outcomes) == Report(Failed, 0, [GaveUp])
  {
  }
}

=== FILE: streams.dfy ===
/** The pure part of `get_video_audio_info` (yt.py): from the format
    descriptors the extraction engine reports for one URL, derive the best
    video height, the best audio bitrate and an estimated size in MiB. */
module Streams {
  import opened Wrappers

  /** One entry of the engine's `info['formats']`. Every field is a
      dictionary key that may be missing; heights and bitrates are taken as
      naturals (the engine reports `abr` as a float). */
  datatype Format = Format(
    vcodec: Option<string>,
    acodec: Option<string>,
    height: Option<nat>,
    abr: Option<nat>,
    filesize: Option<int>)

  /** What the probe reports for one field: a number, or a sentinel text. */
  datatype Reading = Value(n: int) | Sentinel(text: string)

  /** The dictionary `get_video_audio_info` returns. */
  datatype MediaInfo = MediaInfo(
    title: Option<string>,
    maxVideoRes: Reading,
    maxAudioBitrate: Reading,
    estimatedSize: Reading)

  /** The engine's answer to `extract_info(url, download=False)`: the
      extracted dictionary (whose `formats` key may be missing), or the
      exception it raised. */
  datatype ProbeReply =
    | Extracted(title: Option<string>, formats: Option<seq<Format>>)
    | ExtractError(message: string)

  const NoVideo: string := "No video available"
  const NoAudio: string := "No audio available"
  const UnknownSize: string := "Unknown"
  const MiB: int := 1024 * 1024

  /** A video candidate: its video codec is not reported as "none" (a
      missing codec qualifies) and it reports a height. */
  predicate IsVideo(f: Format) {
    f.vcodec != Some("none") && f.height.Some?
  }

  /** An audio candidate: its audio codec is not reported as "none" and it
      reports an audio bitrate. */
  predicate IsAudio(f: Format) {
    f.acodec != Some("none") && f.abr.Some?
  }

  /** The ordering keys: the height and the audio bitrate, 0 when missing. */
  function HeightKey(f: Format): nat { f.height.Or(0) }
  function AbrKey(f: Format): nat { f.abr.Or(0) }

  /** A list comprehension with a condition: keeps exactly the elements
      satisfying `p`, in their original order. */
  function Filter(xs: seq<Format>, p: Format -> bool): (r: seq<Format>)
    ensures |r| <= |xs|
    ensures forall x :: x in r <==> x in xs && p(x)
  {
    if xs == [] then []
    else (if p(xs[0]) then [xs[0]] else []) + Filter(xs[1..], p)
  }

  /** Filtering distributes over concatenation, so the candidates keep the
      engine's order. */
  lemma {:induction false} FilterAppend(a: seq<Format>, b: seq<Format>, p: Format -> bool)
    ensures Filter(a + b, p) == Filter(a, p) + Filter(b, p)
  {
    if a == [] {
      assert a + b == b;
    } else {
      assert (a + b)[1..] == a[1..] + b;
      FilterAppend(a[1..], b, p);
    }
  }

  /** `video_streams`: the formats with a video codec and a known height. */
  function VideoCandidates(fs: seq<Format>): (vs: seq<Format>)
    ensures forall f :: f in vs <==> f in fs && f.vcodec != Some("none") && f.height.Some?
  {
    Filter(fs, IsVideo)
  }

  /** `audio_streams`: the formats with an audio codec and a known bitrate. */
  function AudioCandidates(fs: seq<Format>): (audios: seq<Format>)
    ensures forall f :: f in audios <==> f in fs && f.acodec != Some("none") && f.abr.Some?
  {
    Filter(fs, IsAudio)
  }

  /** `r` is the element Python's `max(xs, key=key)` returns: a largest
      key, and the first position holding one. */
  ghost predicate IsFirstMax<T>(xs: seq<T>, key: T -> nat, r: int) {
    && 0 <= r < |xs|
    && (forall j :: 0 <= j < |xs| ==> key(xs[j]) <= key(xs[r]))
    && (forall j :: 0 <= j < r ==> key(xs[j]) < key(xs[r]))
  }

  /** At most one position is the first maximum. */
  lemma FirstMaxUnique<T>(xs: seq<T>, key: T -> nat, r1: int, r2: int)
    requires IsFirstMax(xs, key, r1) && IsFirstMax(xs, key, r2)
    ensures r1 == r2
  {
    assert key(xs[r1]) == key(xs[r2]);
  }

  /** Python's `max` loop from position `i` on, with `best` the running
      winner: a later element replaces it only when strictly greater. */
  function MaxFrom<T>(xs: seq<T>, key: T -> nat, i: nat, best: nat): (r: nat)
    requires best < i <= |xs|
    requires forall j :: 0 <= j < best ==> key(xs[j]) < key(xs[best])
    requires forall j :: best <= j < i ==> key(xs[j]) <= key(xs[best])
    ensures IsFirstMax(xs, key, r)
    decreases |xs| - i
  {
    if i == |xs| then best
    else if key(xs[i]) > key(xs[best]) then MaxFrom(xs, key, i + 1, i)
    else MaxFrom(xs, key, i + 1, best)
  }

  /** `max(xs, key=key)` on a non-empty list, as a position. */
  function Max<T>(xs: seq<T>, key: T -> nat): (r: nat)
    requires |xs| > 0
    ensures IsFirstMax(xs, key, r)
  {
    MaxFrom(xs, key, 1, 0)
  }

  /** `r` reports the largest key among `cands`, or `sentinel` when there
      are none. */
  ghost predicate ReportsMax(r: Reading, cands: seq<Format>, key: Format -> nat, sentinel: string) {
    if cands == [] then r == Sentinel(sentinel)
    else
      && r.Value?
      && (exists i :: 0 <= i < |cands| && key(cands[i]) == r.n)
      && (forall i :: 0 <= i < |cands| ==> key(cands[i]) <= r.n)
  }

  /** The best-of field of the summary: the key of `max(cands, key=key)`,
      or the sentinel when the list is empty. */
  function BestOf(cands: seq<Format>, key: Format -> nat, sentinel: string): (r: Reading)
    ensures ReportsMax(r, cands, key, sentinel)
  {
    if cands == [] then Sentinel(sentinel)
    else
      var i := Max(cands, key);
      Value(key(cands[i]))
  }

  /** The contribution of one format to the size sum: its `filesize` when
      that is truthy (present and non-zero), nothing otherwise. */
  function KnownSize(f: Format): int {
    // a size of 0 is falsy and skipped, which adds the same nothing
    f.filesize.Or(0)
  }

  /** The sum of the truthy file sizes of the given formats. */
  function SizeTotal(fs: seq<Format>): int {
    if fs == [] then 0 else KnownSize(fs[0]) + SizeTotal(fs[1..])
  }

  /** The size sum adds up over a concatenation. */
  lemma {:induction false} SizeTotalAppend(a: seq<Format>, b: seq<Format>)
    ensures SizeTotal(a + b) == SizeTotal(a) + SizeTotal(b)
  {
    if a == [] {
      assert a + b == b;
    } else {
      assert (a + b)[1..] == a[1..] + b;
      SizeTotalAppend(a[1..], b);
    }
  }

  /** A format without a known size adds nothing to the total, wherever it
      stands in the list. */
  lemma UnknownSizeIgnored(a: seq<Format>, f: Format, b: seq<Format>)
    requires f.filesize.None? || f.filesize == Some(0)
    ensures SizeTotal(a + [f] + b) == SizeTotal(a + b)
  {
    SizeTotalAppend(a + [f], b);
    SizeTotalAppend(a, [f]);
    SizeTotalAppend(a, b);
  }

  /** With no negative sizes reported, the total is non-negative. */
  lemma {:induction false} SizeTotalNonNegative(fs: seq<Format>)
    requires forall k :: 0 <= k < |fs| ==> fs[k].filesize.Or(0) >= 0
    ensures SizeTotal(fs) >= 0
  {
    if fs != [] {
      assert forall k :: 0 <= k < |fs| - 1 ==> fs[1..][k] == fs[k + 1];
      SizeTotalNonNegative(fs[1..]);
    }
  }

  /** The total in whole MiB, rounded down, or "Unknown" unless that is
      positive. Python's floor division and Dafny's `/` agree for a positive
      divisor. */
  function EstimatedSize(total: int): (r: Reading)
    ensures r == Sentinel(UnknownSize) <==> total < MiB
    ensures r.Value? ==> 1 <= r.n && r.n * MiB <= total < r.n * MiB + MiB
    ensures r.Value? || r == Sentinel(UnknownSize)
  {
    var q := total / MiB;
    if q > 0 then Value(q) else Sentinel(UnknownSize)
  }

  /** The summary `get_video_audio_info` builds from an extracted reply. */
  function Summarize(title: Option<string>, fs: seq<Format>): (m: MediaInfo)
    ensures m.title == title
    ensures ReportsMax(m.maxVideoRes, VideoCandidates(fs), HeightKey, NoVideo)
    ensures ReportsMax(m.maxAudioBitrate, AudioCandidates(fs), AbrKey, NoAudio)
    ensures m.estimatedSize == Sentinel(UnknownSize) <==> SizeTotal(VideoCandidates(fs)) < MiB
    ensures m.estimatedSize.Value? ==>
              var total := SizeTotal(VideoCandidates(fs));
              1 <= m.estimatedSize.n && m.estimatedSize.n * MiB <= total < m.estimatedSize.n * MiB + MiB
  {
    var videos := VideoCandidates(fs);
    var audios := AudioCandidates(fs);
    MediaInfo(
      title,
      BestOf(videos, HeightKey, NoVideo),
      BestOf(audios, AbrKey, NoAudio),
      EstimatedSize(SizeTotal(videos)))
  }

  /** `get_video_audio_info(url)`: None exactly when the engine raised or
      its reply lacks `formats` (the `KeyError` is caught like any other
      exception); otherwise the summary of the reported formats. */
  function Probe(reply: ProbeReply): (r: Option<MediaInfo>)
    ensures r.None? <==> reply.ExtractError? || reply.formats.None?
    ensures r.Some? ==> r.value == Summarize(reply.title, reply.formats.value)
  {
    match reply
    case ExtractError(_) => None
    case Extracted(title, formats) =>
      match formats
      case None => None
      case Some(fs) => Some(Summarize(title, fs))
  }

  /** A URL offering only an audio stream at 128 kbps reports no video, a
      bitrate of 128 and an unknown size. */
  lemma AudioOnlyScenario()
    ensures
      var f := Format(Some("none"), Some("opus"), None, Some(128), None);
      Probe(Extracted(Some("t"), Some([f])))
        == Some(MediaInfo(Some("t"), Sentinel(NoVideo), Value(128), Sentinel(UnknownSize)))
  {
    var f := Format(Some("none"), Some("opus"), None, Some(128), None);
    assert VideoCandidates([f]) == [];
    assert AudioCandidates([f]) == [f];
  }
}

=== FILE: text.dfy ===
/** The pieces of Python's string and path handling that yt.py relies on:
    `str.strip()`, `str.split(',')` and `os.path.join` (POSIX flavour). */
module Text {

  /** The characters Python's `str.strip()` removes when called without an
      argument: exactly those for which `str.isspace()` holds. */
  predicate IsSpace(c: char) {
    var n := c as int;
    || (0x09 <= n <= 0x0D)
    || (0x1C <= n <= 0x20)
    || n == 0x85
    || n == 0xA0
    || n == 0x1680
    || (0x2000 <= n <= 0x200A)
    || n == 0x2028
    || n == 0x2029
    || n == 0x202F
    || n == 0x205F
    || n == 0x3000
  }

  /** Every character of `s` before index `n` is whitespace. */
  ghost predicate SpaceBefore(s: string, n: int) {
    forall k :: 0 <= k < n && k < |s| ==> IsSpace(s[k])
  }

  /** Every character of `s` from index `n` on is whitespace. */
  ghost predicate SpaceFrom(s: string, n: int) {
    forall k :: 0 <= n <= k < |s| ==> IsSpace(s[k])
  }

  /** The left scan of `str.strip()`: the first index from `i` on that
      does not hold whitespace, or `|s|`. */
  function SkipSpace(s: string, i: nat): (e: nat)
    requires i <= |s|
    ensures i <= e <= |s|
    ensures forall k :: i <= k < e ==> IsSpace(s[k])
    ensures e < |s| ==> !IsSpace(s[e])
    decreases |s| - i
  {
    if i < |s| && IsSpace(s[i]) then SkipSpace(s, i + 1) else i
  }

  /** The right scan of `str.strip()`: moving `j` down towards `lo` past
      whitespace, it stops after the last non-whitespace character. */
  function BackSpace(s: string, lo: nat, j: nat): (e: nat)
    requires lo <= j <= |s|
    ensures lo <= e <= j
    ensures forall k :: e <= k < j ==> IsSpace(s[k])
    ensures e > lo ==> !IsSpace(s[e - 1])
    decreases j
  {
    if j > lo && IsSpace(s[j - 1]) then BackSpace(s, lo, j - 1) else j
  }

  /** `s[i..j]` is `s` with its leading and trailing whitespace cut off: it
      neither starts nor ends with whitespace, and outside of it `s` holds
      only whitespace. */
  ghost predicate StripBounds(s: string, i: int, j: int) {
    && 0 <= i <= j <= |s|
    && SpaceBefore(s, i)
    && SpaceFrom(s, j)
    && (i == j || (!IsSpace(s[i]) && !IsSpace(s[j - 1])))
  }

  /** `r` is the slice of `s` between some pair of strip bounds. */
  ghost predicate Stripped(s: string, r: string) {
    exists i, j :: StripBounds(s, i, j) && r == s[i..j]
  }

  /** The two cuts `str.strip()` makes. */
  function StripRange(s: string): (ij: (nat, nat))
    ensures StripBounds(s, ij.0, ij.1)
  {
    var i := SkipSpace(s, 0);
    (i, BackSpace(s, i, |s|))
  }

  /** The input with leading and trailing whitespace removed. */
  function Strip(s: string): (r: string)
    ensures Stripped(s, r)
  {
    var ij := StripRange(s);
    s[ij.0..ij.1]
  }

  /** The cuts are determined by `StripBounds`, up to where an empty
      result is cut. */
  lemma StripBoundsUnique(s: string, i: int, j: int)
    requires StripBounds(s, i, j)
    ensures i < j ==> (i, j) == StripRange(s)
    ensures s[i..j] == Strip(s)
  {
    var a := SkipSpace(s, 0);
    var b := BackSpace(s, a, |s|);
    if i == j {
      assert a == |s|;
    } else {
      assert i == a;
      assert j == b;
    }
  }

  /** Stripping is determined by `Stripped`: any slice meeting that
      description is exactly what `Strip` returns. */
  lemma StrippedIsStrip(s: string, r: string)
    requires Stripped(s, r)
    ensures r == Strip(s)
  {
    var i, j :| StripBounds(s, i, j) && r == s[i..j];
    StripBoundsUnique(s, i, j);
  }

  /** Stripping keeps a slice of the input, so it introduces no character. */
  lemma StripKeepsChars(s: string, c: char)
    requires c in Strip(s)
    ensures c in s
  {
    var (i, j) := StripRange(s);
    var k :| 0 <= k < j - i && s[i..j][k] == c;
    assert s[i + k] == c;
  }

  /** A string that neither starts nor ends with whitespace strips to itself. */
  lemma StripUnchanged(s: string)
    requires s != [] && !IsSpace(s[0]) && !IsSpace(s[|s| - 1])
    ensures Strip(s) == s
  {
    assert s[0..|s|] == s;
  }

  /** Leading whitespace is dropped by stripping. */
  lemma StripLeadingSpace(c: char, s: string)
    requires IsSpace(c) && s != [] && !IsSpace(s[0]) && !IsSpace(s[|s| - 1])
    ensures Strip([c] + s) == s
  {
    var t := [c] + s;
    assert StripBounds(t, 1, |t|);
    assert t[1..|t|] == s;
    StrippedIsStrip(t, s);
  }

  /** Stripping twice changes nothing. */
  lemma StripIdempotent(s: string)
    ensures Strip(Strip(s)) == Strip(s)
  {
    var (i, j) := StripRange(s);
    var r := s[i..j];
    assert StripBounds(r, 0, |r|);
    assert r == r[0..|r|];
    StrippedIsStrip(r, r);
  }

  /** Number of occurrences of `c` in `s`. */
  function Count(s: string, c: char): nat {
    if s == [] then 0 else (if s[0] == c then 1 else 0) + Count(s[1..], c)
  }

  /** `sep.join(parts)`: the pieces with one `sep` between neighbours. */
  function Join(parts: seq<string>, sep: char): string {
    if |parts| == 0 then ""
    else if |parts| == 1 then parts[0]
    else parts[0] + [sep] + Join(parts[1..], sep)
  }

  /** `s.split(sep)` for a one-character separator: never empty, one piece
      more than there are separators, no piece holds the separator, and
      joining the pieces back gives `s`. Empty pieces are kept. */
  function Split(s: string, sep: char): (r: seq<string>)
    ensures |r| == Count(s, sep) + 1
    ensures forall k :: 0 <= k < |r| ==> sep !in r[k]
    ensures Join(r, sep) == s
  {
    if |s| == 0 then [""]
    else
      var rest := Split(s[1..], sep);
      if s[0] == sep then
        assert [s[0]] + s[1..] == s;
        [""] + rest
      else
        var head := [s[0]] + rest[0];
        var r := [head] + rest[1..];
        assert r[1..] == rest[1..];
        assert Join(r, sep) == s by {
          if |rest| == 1 {
            assert [s[0]] + s[1..] == s;
          } else {
            calc {
              Join(r, sep);
              head + [sep] + Join(rest[1..], sep);
              [s[0]] + (rest[0] + [sep] + Join(rest[1..], sep));
              [s[0]] + Join(rest, sep);
              s;
            }
          }
        }
        r
  }

  /** Joining separator-free pieces and splitting the result gives the pieces
      back, so `Split` and `Join` are inverses. */
  lemma {:induction false} SplitJoin(parts: seq<string>, sep: char)
    requires |parts| >= 1
    requires forall k :: 0 <= k < |parts| ==> sep !in parts[k]
    ensures Split(Join(parts, sep), sep) == parts
  {
    var s := Join(parts, sep);
    JoinInjective(Split(s, sep), parts, sep);
  }

  /** A string with exactly one separator splits into the two sides. */
  lemma SplitAtOne(a: string, b: string, sep: char)
    requires sep !in a && sep !in b
    ensures Split(a + [sep] + b, sep) == [a, b]
  {
    assert Join([a, b], sep) == a + [sep] + b;
    SplitJoin([a, b], sep);
  }

  /** Two lists of separator-free pieces with the same join are equal. */
  lemma {:induction false} JoinInjective(p: seq<string>, q: seq<string>, sep: char)
    requires |p| >= 1 && |q| >= 1
    requires forall k :: 0 <= k < |p| ==> sep !in p[k]
    requires forall k :: 0 <= k < |q| ==> sep !in q[k]
    requires Join(p, sep) == Join(q, sep)
    ensures p == q
    decreases |p|
  {
    var s := Join(p, sep);
    HeadOfJoin(p, sep);
    HeadOfJoin(q, sep);
    assert p[0] == q[0];
    if |p| == 1 || |q| == 1 {
      assert |p| == 1 && |q| == 1;
    } else {
      var n := |p[0]|;
      assert s[n + 1..] == Join(p[1..], sep);
      assert s[n + 1..] == Join(q[1..], sep);
      JoinInjective(p[1..], q[1..], sep);
      assert p == [p[0]] + p[1..];
      assert q == [q[0]] + q[1..];
    }
  }

  /** The first piece of a join is the prefix before the first separator; the
      separator follows it exactly when there is more than one piece. */
  lemma HeadOfJoin(p: seq<string>, sep: char)
    requires |p| >= 1
    requires forall k :: 0 <= k < |p| ==> sep !in p[k]
    ensures |p[0]| <= |Join(p, sep)| && Join(p, sep)[..|p[0]|] == p[0]
    ensures |p| == 1 <==> |Join(p, sep)| == |p[0]|
    ensures |p| > 1 ==> Join(p, sep)[|p[0]|] == sep && Join(p, sep)[|p[0]| + 1..] == Join(p[1..], sep)
  {
  }

  /** `os.path.join(a, b)` on POSIX: an absolute `b` replaces `a`; otherwise a
      `/` is inserted unless `a` is empty or already ends with one. */
  function PathJoin(a: string, b: string): (r: string)
    ensures |b| > 0 && b[0] == '/' ==> r == b
    ensures !(|b| > 0 && b[0] == '/') ==>
              && |a| + |b| <= |r| <= |a| + |b| + 1
              && r[..|a|] == a
              && r[|r| - |b|..] == b
              && (|r| == |a| + |b| + 1 <==> a != [] && a[|a| - 1] != '/')
              && (|r| == |a| + |b| + 1 ==> r[|a|] == '/')
  {
    if |b| > 0 && b[0] == '/' then b
    else if a == [] || a[|a| - 1] == '/' then a + b
    else a + "/" + b
  }
}

=== FILE: wrappers.dfy ===
/** An optional value: Python's `None`, or a dictionary key that may be
    missing. */
module Wrappers {

  datatype Option<T> = None | Some(value: T) {

    /** The held value, or `fallback` when there is none, as `d.get(k, fallback)` reads a key. */
    function Or(fallback: T): T {
      if Some? then value else fallback
    }
  }
}
